=== FILE: README.md ===
# SOCI index generator lambda: decision logic

A Dafny model of the decision logic of the SOCI index generator lambda's
handler (`handler.go`). The lambda receives an ECR "image action" event and
proceeds in stages:

1. It validates the event.
2. It initialises a client for the account's registry.
3. It checks that the image manifest is one to index.
4. For the converting ("V2") strategy, it requires an image tag.
5. It creates a working directory, initialises a local OCI store and pulls the image.
6. It builds a SOCI index: the legacy build (then the newest index record), or the converting build.
7. It pushes the index.

Each stage's exit returns a fixed (message, error-or-nil) pair. A nil error
tells the upstream event source not to retry.

The model is functional throughout:

- `Events` holds the event and the context entries that validation stores, as `Option` fields.
- `Validation` is `validateEvent`:
  - each check is a predicate `Violated(e, v)`;
  - the collected violations are `Collect(e, Checks)`, in source order;
  - the result is the enriched context and the first violation.
- `Patterns` states the four pattern checks as direct substring predicates.
  Go's `regexp.MatchString` is unanchored: it reports whether any substring
  matches.
- `Grammar` writes each of the four regular expressions as a grammar. It
  proves that an unanchored search for that grammar decides exactly the
  substring predicate of `Patterns`.
- `Registry` is `buildEcrRegistryUrl`, with a parser that recovers the region.
- `Errors` models Go errors as a leaf message or a `%w` wrap with a prefix;
  `Text` is `err.Error()`.
- `IndexBuild` is `buildIndex`:
  - the strategy branch on the exact string "V2";
  - the error wrapping of `Convert` and `Build`;
  - the newest-record selection.
- `Handler` is `HandleRequest`.
  - Every foreign call's result is a field of an `Oracle` input: the
    registry client, directory creation, store initialisation, the SOCI
    builder and the index collection query.
  - The version string read from the environment is a parameter.
  - The handler returns its `Response` together with the sequence of foreign
    `Call`s it made, in order. That sequence includes the deferred removal of
    the working directory (`CleanUp`).
- `HandlerProperties` holds the stage-by-stage exit lemmas, the cross-cutting
  properties (retry signal, cleanup, push target) and the end-to-end scenarios.

All message texts are the source's constants, verbatim.

Two points of the code deserve a note:

- The pattern checks use Go's `regexp.MatchString`, which is unanchored, so
  the bounds in the patterns do not limit the whole input.
  - `{12}` in the account pattern (handler.go:181) no longer limits the account
    to exactly 12 characters: any account containing 12 consecutive digits
    passes, however long it is.
  - `{0,127}` in the tag pattern (handler.go:211) constrains nothing: one word
    character anywhere in the tag is enough, so a tag longer than 128
    characters passes.
- The `SkipPushOnEmptyIndexMessage` constant (handler.go:45) and the skip branch
  (handler.go:137-139) show that an empty index is meant to skip the push with a
  nil error. For a builder's empty-index error that branch can never be taken;
  see "## Findings".

## Model

| member | source | states |
|---|---|---|
| Validation.Validate | functions/source/soci-index-generator-lambda/handler.go:189-220 | the repository, digest and tag reach the context verbatim exactly when that field's own check passes (a tag only when non-empty); otherwise the incoming value is kept, whether or not validation fails overall |
| Validation.Message | functions/source/soci-index-generator-lambda/handler.go:160-218 | the eleven violation texts, verbatim; it has no contract of its own, and HandlerProperties.ValidationFailureExit states that the first violation's text is the error the handler returns |
| Validation.Violated | functions/source/soci-index-generator-lambda/handler.go:159-219 | each check judged on its own; it has no contract of its own, and Validation.ViolationsExactly and Validation.FirstViolationReported state how the validator uses it |
| Validation.Violations | functions/source/soci-index-generator-lambda/handler.go:157-219 | the violations in collection order; it has no contract of its own, and Validation.ViolationsExactly (exactly the failed checks, once each, in check order) and Validation.FirstViolationReported (the first one is the reported error) state it |
| Validation.ViolationsExactly | functions/source/soci-index-generator-lambda/handler.go:157-220 | the collected violations are exactly the checks the event fails, each recorded once, in the validator's check order |
| Validation.FirstViolationReported | functions/source/soci-index-generator-lambda/handler.go:222-226 | the reported error is v exactly when v is violated and no violated check comes before it; the error is nil exactly when no check fails |
| Validation.SourceMismatchAlwaysReported | functions/source/soci-index-generator-lambda/handler.go:159-226 | a source other than "aws.ecr" is the reported violation whatever else is wrong |
| Validation.EmptyAccountTwoViolations | functions/source/soci-index-generator-lambda/handler.go:162-187 | an empty account yields both the emptiness and the account-ID violation, the emptiness one first |
| Validation.ShortAccountRejected | functions/source/soci-index-generator-lambda/handler.go:181-187 | an account shorter than 12 characters fails the account-ID check and validation fails |
| Validation.ShortAccountExample | functions/source/soci-index-generator-lambda/handler.go:181-187 | the account "12345" makes validation fail |
| Validation.LongTagAccepted | functions/source/soci-index-generator-lambda/handler.go:210-219 | a tag longer than 128 characters passes the tag check when it contains a word character anywhere |
| Validation.EmptyTagUnset | functions/source/soci-index-generator-lambda/handler.go:209-220 | an empty tag is never a violation and leaves the context's tag entry as it was |
| Validation.DigestBoundary | functions/source/soci-index-generator-lambda/handler.go:199-207 | for `<algorithm>:<hex>` whose algorithm starts with a letter or `[` and continues alphanumeric, the digest check passes exactly when there are at least 32 hex characters |
| HandlerProperties.DigestBoundaryExamples | functions/source/soci-index-generator-lambda/handler.go:199-207 | "sha256:" with 32 hex characters passes and with 31 fails |
| Grammar.AccountSearchIff | functions/source/soci-index-generator-lambda/handler.go:181 | the account pattern matches somewhere in s exactly when s contains 12 consecutive digits |
| Grammar.RepositorySearchIff | functions/source/soci-index-generator-lambda/handler.go:189 | the repository pattern, segments and separators included, matches somewhere in s exactly when s contains a lower-case letter or digit |
| Grammar.TagSearchIff | functions/source/soci-index-generator-lambda/handler.go:211 | the bounded tag pattern matches somewhere in s exactly when s contains a word character |
| Grammar.DigestSearchSound | functions/source/soci-index-generator-lambda/handler.go:199 | a match of the digest pattern, separator groups included, yields a lead character, an alphanumeric run, a colon and 32 hex characters |
| Grammar.DigestSearchComplete | functions/source/soci-index-generator-lambda/handler.go:199 | a lead character, alphanumeric run, colon and 32 hex characters form a match of the digest pattern |
| Grammar.DigestSearchIff | functions/source/soci-index-generator-lambda/handler.go:199 | the digest pattern matches somewhere in s exactly when the digest substring predicate holds |
| Registry.BuildEcrRegistryUrl | functions/source/soci-index-generator-lambda/handler.go:230-236 | the URL starts with `<account>.dkr.ecr.<region>` and ends with the China-partition domain exactly when the region starts with "cn", otherwise with ".amazonaws.com", with nothing in between |
| Registry.RegistryUrlRoundTrip | functions/source/soci-index-generator-lambda/handler.go:230-236 | parsing the URL back with the account recovers the event's region |
| Errors.Text | functions/source/soci-index-generator-lambda/handler.go:341-351 | `err.Error()` of a leaf or of a `%w` wrap, the prefix followed by the cause's text; it has no contract of its own, and Errors.WrappedMessageStartsWithPrefix and HandlerProperties.BuilderErrorNeverMatchesText state it |
| Errors.WrappedMessageStartsWithPrefix | functions/source/soci-index-generator-lambda/handler.go:343 | a `%w`-wrapped error's message begins with the wrapping prefix |
| IndexBuild.LatestIndex | functions/source/soci-index-generator-lambda/handler.go:362-366 | the position selected after the ascending sort by creation time holds a record created no earlier than any other |
| IndexBuild.BuildIndex | functions/source/soci-index-generator-lambda/handler.go:315-368 | only builder calls are made; Convert is called only for "V2" and Build only otherwise; a V2 success returns the converted descriptor; a legacy success returns the descriptor of a newest record of the collection; after setup, a V2 build succeeds with the converted descriptor whenever Convert succeeds, and a legacy build whose Build and collection query succeed succeeds exactly when the collection is non-empty |
| IndexBuild.StrategySelection | functions/source/soci-index-generator-lambda/handler.go:339-349 | after setup, "V2" calls exactly Convert, and every other version string calls Build |
| IndexBuild.BuilderErrorsWrapped | functions/source/soci-index-generator-lambda/handler.go:341-358 | a Convert or Build failure comes back wrapped with its stage's prefix; a collection query failure comes back unchanged |
| IndexBuild.SetupErrorsUnwrapped | functions/source/soci-index-generator-lambda/handler.go:319-336 | an artifacts-DB, content-store or builder creation failure is returned unchanged, with no later call |
| IndexBuild.EmptyCollectionIsError | functions/source/soci-index-generator-lambda/handler.go:359-361 | a legacy build with no index records fails with "no SOCI indices found in OCI store" |
| IndexBuild.StrictlyLatestSelected | functions/source/soci-index-generator-lambda/handler.go:362-366 | a record created strictly after all others is the one returned |
| IndexBuild.LaterOfTwoSelected | functions/source/soci-index-generator-lambda/handler.go:362-366 | of two records created at T1 < T2, the one created at T2 is returned |
| Handler.HandleRequest | functions/source/soci-index-generator-lambda/handler.go:64-153 | the handler as written; it has no contract of its own, and HandlerProperties.ExitFacts, HandlerProperties.BuildAndPushExits, HandlerProperties.RetrySignal, HandlerProperties.SuccessOnlyAfterPush and HandlerProperties.CleanUpOnceAndLast state its result and calls |
| Handler.Handle | functions/source/soci-index-generator-lambda/handler.go:64-68 | validation and the dispatch to the later stages, for either empty-index detection; it has no contract of its own, and HandlerProperties.ValidationFailureExit, HandlerProperties.ValidEventGated and HandlerProperties.IntendedAgreesElsewhere state it |
| Handler.IsEmptyIndexError | functions/source/soci-index-generator-lambda/handler.go:137 | the exact-text comparison as written (`ByMessage`) and the wrap-chain recognition (`ByCause`); it has no contract of its own, and HandlerProperties.BuilderErrorNeverMatchesText and HandlerProperties.WorkspaceDetectionAgrees state it |
| Handler.Gated | functions/source/soci-index-generator-lambda/handler.go:74-103 | the registry and tag gates; it has no contract of its own, and HandlerProperties.RegistryInitExit, HandlerProperties.ManifestCheckExit, HandlerProperties.UntaggedV2Exit and HandlerProperties.EntersWorkspace state it |
| Handler.InWorkspace | functions/source/soci-index-generator-lambda/handler.go:105-152 | the directory, store, pull, build and push stages with the deferred removal; it has no contract of its own, and HandlerProperties.EarlyWorkspaceExits, HandlerProperties.BuildAndPushExits, HandlerProperties.CleanUpOnceAndLast and HandlerProperties.WorkspaceDetectionAgrees state it |
| HandlerProperties.WellFormedContext | functions/source/soci-index-generator-lambda/handler.go:193-220 | a well-formed event's context holds its repository, digest and (if non-empty) tag |
| HandlerProperties.ValidEventGated | functions/source/soci-index-generator-lambda/handler.go:64-103 | a well-formed event proceeds to the registry stages with its own tag in the context |
| HandlerProperties.ValidationFailureExit | functions/source/soci-index-generator-lambda/handler.go:65-68 | a validation failure returns the validation message with the first violation and makes no foreign call |
| HandlerProperties.SourceMismatchExit | functions/source/soci-index-generator-lambda/handler.go:65-68 | a wrong source returns the validation message with the source violation and makes no foreign call |
| HandlerProperties.RegistryInitExit | functions/source/soci-index-generator-lambda/handler.go:76-82 | a registry initialisation failure returns its message verbatim with its error, as lambdaError (handler.go:371-374) does, after that single call |
| HandlerProperties.ManifestCheckExit | functions/source/soci-index-generator-lambda/handler.go:84-89 | a failing manifest check returns the early-exit message with a nil error after the two registry calls |
| HandlerProperties.UntaggedV2Exit | functions/source/soci-index-generator-lambda/handler.go:92-99 | V2 with no tag returns the skip message with a nil error after only the registry calls |
| HandlerProperties.WorkspaceDetectionAgrees | functions/source/soci-index-generator-lambda/handler.go:135-142 | both empty-index detections give the same invocation unless the build error's chain carries the empty-index text |
| HandlerProperties.EntersWorkspace | functions/source/soci-index-generator-lambda/handler.go:92-110 | past the gates, the calls are the two registry calls followed by the workspace stages, run with tag `<tag>-soci` for V2 and "" otherwise |
| HandlerProperties.EarlyWorkspaceExits | functions/source/soci-index-generator-lambda/handler.go:105-128 | directory, store and pull failures return their stage's message verbatim with the error, as lambdaError (handler.go:371-374) does, after exactly the calls made so far |
| HandlerProperties.BuildAndPushExits | functions/source/soci-index-generator-lambda/handler.go:135-152 | the build and push exits with their messages, errors and full call sequences; the build and push failures return their message verbatim with the error, as lambdaError (handler.go:371-374) does |
| HandlerProperties.ExitFacts | functions/source/soci-index-generator-lambda/handler.go:64-110 | the result at each gate exit, and that the workspace is entered exactly when every gate passes |
| HandlerProperties.RetrySignal | functions/source/soci-index-generator-lambda/handler.go:64-153 | the returned error is nil exactly when the message is one of the four benign messages |
| HandlerProperties.SuccessOnlyAfterPush | functions/source/soci-index-generator-lambda/handler.go:146-152 | success is reported exactly when every stage passed, the build produced an index and the push succeeded |
| HandlerProperties.GateExitsDoNoWork | functions/source/soci-index-generator-lambda/handler.go:64-103 | an exit at validation, a registry gate or the tag gate makes only registry calls: no directory, pull, build or push |
| HandlerProperties.PushTarget | functions/source/soci-index-generator-lambda/handler.go:91-146 | a push goes to the event's repository under `<tag>-soci` for V2 and under "" for every other version |
| HandlerProperties.CleanUpOnceAndLast | functions/source/soci-index-generator-lambda/handler.go:106-110 | the directory is removed exactly when it was created, once, as the last call |
| HandlerProperties.BuilderErrorNeverMatchesText | functions/source/soci-index-generator-lambda/handler.go:137 | a Convert or Build error, being wrapped, never has the empty-index text |
| HandlerProperties.AsWrittenEmptyIndexReportedAsFailure | functions/source/soci-index-generator-lambda/handler.go:135-142 | as written, a legacy builder's empty-index error returns the build failure message with a non-nil error |
| HandlerProperties.IntendedEmptyIndexSkipsPush | functions/source/soci-index-generator-lambda/handler.go:135-142 | when the empty-index error is recognised along the wrap chain, it returns the skip message with a nil error, makes no push, and removes the directory last |
| HandlerProperties.IntendedAgreesElsewhere | functions/source/soci-index-generator-lambda/handler.go:135-142 | the corrected handler behaves exactly as written whenever the build error does not carry the empty-index text |
| HandlerProperties.ScenarioDigestValid | functions/source/soci-index-generator-lambda/handler.go:199-207 | "sha256:" followed by 64 hex characters passes the digest check |
| HandlerProperties.ScenarioEventValid | functions/source/soci-index-generator-lambda/handler.go:156-226 | the PUSH event for `myrepo@sha256:<64 hex>` tagged "latest" passes validation |
| HandlerProperties.ScenarioLegacy | functions/source/soci-index-generator-lambda/handler.go:64-153 | with "V1" and one index record, that record's descriptor is pushed untagged to "myrepo" and success is reported |
| HandlerProperties.ConvertedPushed | functions/source/soci-index-generator-lambda/handler.go:91-152 | with every stage passing, a valid tagged event under "V2" has its converted index pushed to the event's repository under `<tag>-soci`, and success is reported |
| HandlerProperties.ScenarioConverted | functions/source/soci-index-generator-lambda/handler.go:91-152 | with "V2", the converted index is pushed under "latest-soci" and success is reported |
| HandlerProperties.ScenarioShortAccount | functions/source/soci-index-generator-lambda/handler.go:65-68 | the account "12345" gives the validation message with an error and no foreign call |

## Left out

- The deadline watchdog (handler.go:112-118, 263-285): the goroutine, the quit channel, the wall-clock deadline and the order of the two deferred calls. It is concurrency and timing.
- What directory creation, the OCI store, the containerd store and the artifacts DB do internally (handler.go:238-312): the free-space warning, `MkdirTemp`, `RemoveAll` and paths. Each is an abstract success or failure in the `Oracle`. The removal is recorded as the `CleanUp` call, and its own failure is only logged.
- The registry client, the SOCI builder's `Build` and `Convert`, `GetIndexDescriptorCollection` and `platforms.DefaultSpec`. They are foreign code, so their results are oracle inputs. An index record is a descriptor and an integer creation time.
- Logging and `fmt.Printf`. Also the context entries the handler writes but never reads back: the registry URL (handler.go:77) and the SOCI index digest (handler.go:144). The repository and digest entries (handler.go:194, 204) are stored, and `Events.Context` holds them, but the handler also never reads them: it takes both from the event (handler.go:74-75). Only the tag entry is read back (handler.go:95).
- `os.Getenv`: the version string is a parameter.
- `lambda.Start` and `main`.
- The error results of `regexp.MatchString` (handler.go:182-184, 190-192, 200-202, 212-214), which cannot occur for these constant patterns.
- Handler.LambdaError: it only logs and returns its two arguments (handler.go:371-374), so it states no contract of its own. The stage lemmas RegistryInitExit, EarlyWorkspaceExits and BuildAndPushExits state that each stage returns its message verbatim with its error.
- `TagFailedMessage` (handler.go:43), which the handler never uses.
- The incoming context is taken to carry none of the entries validation stores (`Events.EmptyContext`).
- IndexBuild.LatestIndex: `sort.Slice` is not stable, so the source does not fix which of several records with the newest creation time is returned. The model takes the last one in collection order. Its contracts and lemmas promise only a newest record, or the unique one when it is strictly newest.

## Findings

| source | as written | input that shows it | evidently intended | confidence | as-written member | corrected member |
|---|---|---|---|---|---|---|
| functions/source/soci-index-generator-lambda/handler.go:137 | the builder's error message is compared exactly with the empty-index text, but `buildIndex` wraps every Build and Convert error with "failed to build SOCI index: " or "failed to convert OCI index: " (handler.go:343, 351), so the comparison never holds for the builder's empty-index error | legacy strategy, every earlier stage succeeds, and `Build` fails with the empty-index error: the handler returns ("SOCI index build error", wrapped error) and the event is retried | when some error along the `Unwrap` chain has the empty-index text, the push is skipped and returns the skip message with a nil error | high that the comparison cannot match; not executed | HandlerProperties.AsWrittenEmptyIndexReportedAsFailure | HandlerProperties.IntendedEmptyIndexSkipsPush |

=== FILE: calls.dfy ===
/** The artifacts passed between pipeline stages and the foreign calls the
    handler performs, recorded in the order it performs them. */
module Calls {

  /** An OCI content descriptor. */
  datatype Descriptor = Descriptor(digest: string, mediaType: string, size: int)

  /** The image handed to the index builder: `repository@digest` and the pulled manifest. */
  datatype Image = Image(name: string, target: Descriptor)

  /** One SOCI index record of the artifacts database and its creation time. */
  datatype IndexRecord = IndexRecord(descriptor: Descriptor, createdAt: int)

  datatype Call =
    | InitRegistry(url: string)
    | ValidateImageDigest(repository: string, digest: string, version: string)
    | CreateTempDir
    | InitSociStore
    | Pull(repository: string, digest: string)
    | InitArtifactsDb
    | InitContainerdStore
    | NewIndexBuilder
    | Convert(image: Image)
    | BuildSociIndex(image: Image)
    | GetIndexDescriptorCollection(image: Image)
    | Push(descriptor: Descriptor, repository: string, tag: string)
    | CleanUp
}

=== FILE: errors.dfy ===
/** Go error values as far as the handler inspects them: a message, possibly
    wrapped by `fmt.Errorf("...: %w", err)` with a prefix. */
module Errors {

  datatype Error =
    | Leaf(text: string)
    | Wrapped(prefix: string, cause: Error)

  /** `err.Error()`: a wrapped error's message is its prefix followed by its cause's message. */
  function Text(e: Error): string {
    match e
    case Leaf(t) => t
    case Wrapped(p, c) => p + Text(c)
  }

  /** Some error along the wrap chain of `e` (including `e` itself) has message `t`. */
  predicate ChainHasMessage(e: Error, t: string) {
    Text(e) == t || (e.Wrapped? && ChainHasMessage(e.cause, t))
  }

  /** The handler's own copy of the SOCI library's empty-index error text. */
  const EmptyIndexText := "no ztocs created, all layers either " + "skipped or produced errors"

  /** The wrapped message starts with the prefix, so it can only equal a text that starts with it too. */
  lemma WrappedMessageStartsWithPrefix(p: string, c: Error)
    ensures |p| <= |Text(Wrapped(p, c))| && Text(Wrapped(p, c))[..|p|] == p
  {
    assert (p + Text(c))[..|p|] == p;
  }
}

=== FILE: events.dfy ===
/** The registry push notification that triggers the handler, and the
    request-scoped context the validator fills in. */
module Events {
  import opened Wrappers

  datatype Detail = Detail(
    actionType: string,
    result: string,
    repositoryName: string,
    imageDigest: string,
    imageTag: string)

  /** An ECR image action event: provenance fields plus the pushed image's detail. */
  datatype Event = Event(
    source: string,
    account: string,
    detailType: string,
    region: string,
    detail: Detail)

  /** The context entries the validator stores; each is absent until stored.
      Of these the handler reads back only the tag, for the V2 tag gate. */
  datatype Context = Context(
    repositoryName: Option<string>,
    imageDigest: Option<string>,
    imageTag: Option<string>)

  const EmptyContext := Context(None, None, None)
}

=== FILE: grammar.dfy ===
/** The languages of the four regular expressions of the event validator,
    written as grammars, and the proof that an unanchored search for each
    (Go's regexp.MatchString, which reports whether ANY substring matches)
    decides exactly the substring predicate of module Patterns. */
module Grammar {
  import opened Strings
  import opened Patterns

  // ----- account: `[0-9]{12}` -----

  predicate AccountLang(t: string) { |t| == 12 && AllDigits(t) }

  predicate AccountSearch(s: string) {
    exists i, j | 0 <= i <= j <= |s| :: AccountLang(s[i..j])
  }

  lemma AccountSearchIff(s: string)
    ensures AccountSearch(s) <==> ContainsAccountId(s)
  {
    if AccountSearch(s) {
      var i, j :| 0 <= i <= j <= |s| && AccountLang(s[i..j]);
      assert AccountIdAt(s, i);
    }
    if ContainsAccountId(s) {
      var i :| 0 <= i < |s| && AccountIdAt(s, i);
      assert AccountLang(s[i..i + 12]);
    }
  }

  // ----- repository: `(?:[a-z0-9]+(?:[._-][a-z0-9]+)*/)*[a-z0-9]+(?:[._-][a-z0-9]+)*` -----

  predicate IsRepositorySeparator(c: char) { c == '.' || c == '_' || c == '-' }

  /** `[a-z0-9]+` */
  predicate Component(t: string) {
    |t| > 0 && forall k :: 0 <= k < |t| ==> IsLowerAlnum(t[k])
  }

  /** `[a-z0-9]+(?:[._-][a-z0-9]+)*`: components joined by single separators. */
  predicate Segment(t: string)
    decreases |t|
  {
    || Component(t)
    || exists k | 0 < k < |t| ::
         Component(t[..k]) && IsRepositorySeparator(t[k]) && Segment(t[k + 1..])
  }

  /** Segments joined by `/`. */
  predicate RepositoryPath(t: string)
    decreases |t|
  {
    || Segment(t)
    || exists k | 0 < k < |t| :: Segment(t[..k]) && t[k] == '/' && RepositoryPath(t[k + 1..])
  }

  predicate RepositorySearch(s: string) {
    exists i, j | 0 <= i <= j <= |s| :: RepositoryPath(s[i..j])
  }

  /** Every repository path starts with a component character. */
  lemma RepositoryPathStart(t: string)
    requires RepositoryPath(t)
    ensures |t| > 0 && IsLowerAlnum(t[0])
  {
    var u := t;
    if !Segment(t) {
      var k :| 0 < k < |t| && Segment(t[..k]) && t[k] == '/' && RepositoryPath(t[k + 1..]);
      u := t[..k];
    }
    assert Segment(u) && u[0] == t[0];
    if !Component(u) {
      var k :| 0 < k < |u| && Component(u[..k]) && IsRepositorySeparator(u[k]) && Segment(u[k + 1..]);
      assert u[..k][0] == u[0];
    }
  }

  lemma RepositorySearchIff(s: string)
    ensures RepositorySearch(s) <==> ContainsRepositoryChar(s)
  {
    if RepositorySearch(s) {
      var i, j :| 0 <= i <= j <= |s| && RepositoryPath(s[i..j]);
      RepositoryPathStart(s[i..j]);
      assert IsLowerAlnum(s[i]);
    }
    if ContainsRepositoryChar(s) {
      var k :| 0 <= k < |s| && IsLowerAlnum(s[k]);
      assert Component(s[k..k + 1]);
      assert RepositoryPath(s[k..k + 1]);
    }
  }

  // ----- tag: `[A-Za-z0-9_][A-Za-z0-9_.-]{0,127}` -----

  predicate IsTagChar(c: char) { IsWordChar(c) || c == '.' || c == '-' }

  /** One word character followed by at most 127 tag characters. */
  predicate TagLang(t: string) {
    && 1 <= |t| <= 128
    && IsWordChar(t[0])
    && forall k :: 1 <= k < |t| ==> IsTagChar(t[k])
  }

  predicate TagSearch(s: string) {
    exists i, j | 0 <= i <= j <= |s| :: TagLang(s[i..j])
  }

  /** The 128-character bound plays no part in an unanchored search. */
  lemma TagSearchIff(s: string)
    ensures TagSearch(s) <==> ContainsTagChar(s)
  {
    if TagSearch(s) {
      var i, j :| 0 <= i <= j <= |s| && TagLang(s[i..j]);
      assert IsWordChar(s[i]);
    }
    if ContainsTagChar(s) {
      var k :| 0 <= k < |s| && IsWordChar(s[k]);
      assert TagLang(s[k..k + 1]);
    }
  }

  // ----- digest: `[[A-Za-z][A-Za-z0-9]*(?:[-_+.][A-Za-z][A-Za-z0-9]*)*[:][A-Fa-f0-9]{32,}` -----

  predicate IsAlgorithmSeparator(c: char) { c == '-' || c == '_' || c == '+' || c == '.' }

  /** `[[A-Za-z][A-Za-z0-9]*` */
  predicate AlgorithmHead(t: string) {
    |t| > 0 && IsDigestLead(t[0]) && AllAlnum(t[1..])
  }

  /** `[A-Za-z][A-Za-z0-9]*` */
  predicate AlgorithmWord(t: string) {
    |t| > 0 && IsLetter(t[0]) && AllAlnum(t[1..])
  }

  /** `(?:[-_+.][A-Za-z][A-Za-z0-9]*)*` */
  predicate AlgorithmGroups(t: string)
    decreases |t|
  {
    || |t| == 0
    || (&& IsAlgorithmSeparator(t[0])
        && exists k | 1 < k <= |t| :: AlgorithmWord(t[1..k]) && AlgorithmGroups(t[k..]))
  }

  /** The algorithm part before the colon. */
  predicate Algorithm(t: string) {
    exists k | 0 < k <= |t| :: AlgorithmHead(t[..k]) && AlgorithmGroups(t[k..])
  }

  /** The whole digest pattern: algorithm, colon, at least 32 hexadecimal characters. */
  predicate DigestLang(t: string) {
    exists j | 0 <= j < |t| ::
      Algorithm(t[..j]) && t[j] == ':' && |t| - (j + 1) >= 32 && AllHex(t[j + 1..])
  }

  predicate DigestSearch(s: string) {
    exists i, j | 0 <= i <= j <= |s| :: DigestLang(s[i..j])
  }

  /** An alphanumeric run that starts with `[` or a letter begins at `i` and reaches the end of `t`. */
  predicate LeadRunAt(t: string, i: int) {
    0 <= i < |t| && IsDigestLead(t[i]) && AllAlnum(t[i + 1..])
  }

  /** A non-empty list of groups ends in a letter-started run. */
  lemma {:induction false} GroupsEndInRun(t: string)
    requires AlgorithmGroups(t) && |t| > 0
    ensures exists i | 0 < i < |t| :: LeadRunAt(t, i)
    decreases |t|
  {
    var k :| 1 < k <= |t| && AlgorithmWord(t[1..k]) && AlgorithmGroups(t[k..]);
    if k == |t| {
      assert t[1..k][1..] == t[2..];
      assert LeadRunAt(t, 1);
    } else {
      GroupsEndInRun(t[k..]);
      var i :| 0 < i < |t[k..]| && LeadRunAt(t[k..], i);
      assert t[k..][i + 1..] == t[k + i + 1..];
      assert LeadRunAt(t, k + i);
    }
  }

  /** Whatever groups the algorithm has, the characters just before its end
      form a run that alone matches `[[A-Za-z][A-Za-z0-9]*`. */
  lemma AlgorithmEndsInRun(t: string)
    requires Algorithm(t)
    ensures exists i | 0 <= i < |t| :: LeadRunAt(t, i)
  {
    var k :| 0 < k <= |t| && AlgorithmHead(t[..k]) && AlgorithmGroups(t[k..]);
    if k == |t| {
      assert t[..k] == t;
      assert LeadRunAt(t, 0);
    } else {
      GroupsEndInRun(t[k..]);
      var i :| 0 < i < |t[k..]| && LeadRunAt(t[k..], i);
      assert t[k..][i + 1..] == t[k + i + 1..];
      assert LeadRunAt(t, k + i);
    }
  }

  /** A string of the digest language holds a run, colon and 32 hex characters. */
  lemma DigestLangHasMatch(t: string) returns (i: int, j: int)
    requires DigestLang(t)
    ensures DigestAt(t, i, j)
  {
    j :| 0 <= j < |t| && Algorithm(t[..j]) && t[j] == ':' && |t| - (j + 1) >= 32 && AllHex(t[j + 1..]);
    AlgorithmEndsInRun(t[..j]);
    i :| 0 <= i < |t[..j]| && LeadRunAt(t[..j], i);
    assert t[..j][i + 1..] == t[i + 1..j];
    assert t[j + 1..j + 33] == t[j + 1..][..32];
  }

  /** A digest match inside a substring is a digest match of the whole string. */
  lemma DigestAtShift(s: string, a: int, b: int, i: int, j: int)
    requires 0 <= a <= b <= |s| && DigestAt(s[a..b], i, j)
    ensures DigestAt(s, a + i, a + j)
  {
    var t := s[a..b];
    var run, run' := t[i + 1..j], s[a + i + 1..a + j];
    forall k | 0 <= k < |run| ensures run[k] == run'[k] {
      assert t[i + 1 + k] == s[a + i + 1 + k];
    }
    var hex, hex' := t[j + 1..j + 33], s[a + j + 1..a + j + 33];
    forall k | 0 <= k < |hex| ensures hex[k] == hex'[k] {
      assert t[j + 1 + k] == s[a + j + 1 + k];
    }
  }

  /** A match of the digest pattern anywhere yields a run, colon and 32 hex characters. */
  lemma DigestSearchSound(s: string)
    requires DigestSearch(s)
    ensures ContainsDigest(s)
  {
    var a, b :| 0 <= a <= b <= |s| && DigestLang(s[a..b]);
    var i, j := DigestLangHasMatch(s[a..b]);
    DigestAtShift(s, a, b, i, j);
  }

  /** A run, colon and 32 hex characters form a match of the whole pattern. */
  lemma DigestSearchComplete(s: string)
    requires ContainsDigest(s)
    ensures DigestSearch(s)
  {
    var i, j :| 0 <= i < j < |s| && DigestAt(s, i, j);
    var t := s[i..j + 33];
    var n := j - i;
    assert t[..n] == s[i..j];
    assert t[..n][1..] == s[i + 1..j];
    assert AlgorithmHead(t[..n][..n]) && AlgorithmGroups(t[..n][n..]);
    assert Algorithm(t[..n]);
    assert t[n + 1..] == s[j + 1..j + 33];
    assert DigestLang(t);
  }

  lemma DigestSearchIff(s: string)
    ensures DigestSearch(s) <==> ContainsDigest(s)
  {
    if DigestSearch(s) {
      DigestSearchSound(s);
    }
    if ContainsDigest(s) {
      DigestSearchComplete(s);
    }
  }
}

=== FILE: handler.dfy ===
/** HandleRequest: the fixed sequence of stages run for one image action
    event, each ending in a specific (message, error-or-nil) pair. Every
    foreign call's result is an input (an Oracle); the model returns the
    response together with the foreign calls made, in order. */
module Handler {
  import opened Wrappers
  import opened Events
  import opened Validation
  import opened Registry
  import opened Errors
  import opened Calls
  import opened IndexBuild

  /** The results the foreign calls yield for one invocation. */
  datatype Oracle = Oracle(
    registryInit: Outcome<Error>,
    manifestCheck: Outcome<Error>,
    tempDir: Outcome<Error>,
    sociStore: Outcome<Error>,
    pull: Result<Descriptor, Error>,
    builder: BuilderOracle,
    push: Outcome<Error>)

  /** The handler's return value: a message and, on failure, an error. */
  datatype Response = Response(message: string, error: Option<Error>)

  datatype Invocation = Invocation(response: Response, calls: seq<Call>)

  /** How a build error is recognised as the empty-index condition: by the
      exact text of the error as returned (the source), or by the text of
      any error along its wrap chain (the evident intent). */
  datatype EmptyIndexDetection = ByMessage | ByCause

  const ValidationErrorMessage := "ECRImageActionEvent validation error"
  const RegistryInitErrorMessage := "Remote registry initialization error"
  const ManifestValidationMessage := "Exited early due to manifest validation error"
  const NoTagSkipMessage := "Skipped SOCI index generation for V2 as image has no tag"
  const DirectoryErrorMessage := "Directory create error"
  const StoreErrorMessage := "OCI storage initialization error"
  const PullErrorMessage := "Image pull error"
  const BuildFailedMessage := "SOCI index build error"
  const PushFailedMessage := "SOCI index push error"
  const SkipPushOnEmptyIndexMessage := "Skipping pushing SOCI index as it does not contain any zTOCs"
  const BuildAndPushSuccessMessage := "Successfully built and pushed SOCI index"
  const ConvertedTagSuffix := "-soci"

  predicate IsEmptyIndexError(d: EmptyIndexDetection, err: Error) {
    match d
    case ByMessage => Text(err) == EmptyIndexText
    case ByCause => ChainHasMessage(err, EmptyIndexText)
  }

  /** lambdaError: the stage's message together with the error it failed with. */
  function LambdaError(msg: string, err: Error): Response {
    Response(msg, Some(err))
  }

  /** The stages from directory creation on; every exit after the directory
      exists ends with its removal. */
  function InWorkspace(d: EmptyIndexDetection, repo: string, digest: string, version: string,
                       tag: string, o: Oracle): Invocation
  {
    if o.tempDir.Fail? then Invocation(LambdaError(DirectoryErrorMessage, o.tempDir.error), [CreateTempDir])
    else
      var calls := [CreateTempDir, InitSociStore];
      if o.sociStore.Fail? then
        Invocation(LambdaError(StoreErrorMessage, o.sociStore.error), calls + [CleanUp])
      else
        var calls := calls + [Pull(repo, digest)];
        match o.pull
        case Failure(err) => Invocation(LambdaError(PullErrorMessage, err), calls + [CleanUp])
        case Success(desc) =>
          var b := BuildIndex(version, Image(repo + "@" + digest, desc), o.builder);
          var calls := calls + b.calls;
          match b.result
          case Failure(err) =>
            if IsEmptyIndexError(d, err) then
              Invocation(Response(SkipPushOnEmptyIndexMessage, None), calls + [CleanUp])
            else
              Invocation(LambdaError(BuildFailedMessage, err), calls + [CleanUp])
          case Success(index) =>
            var calls := calls + [Push(index, repo, tag)];
            if o.push.Fail? then
              Invocation(LambdaError(PushFailedMessage, o.push.error), calls + [CleanUp])
            else
              Invocation(Response(BuildAndPushSuccessMessage, None), calls + [CleanUp])
  }

  /** The registry initialisation and the manifest check, in the order they are made. */
  function GateCalls(e: Event, version: string): seq<Call> {
    [InitRegistry(BuildEcrRegistryUrl(e)),
     ValidateImageDigest(e.detail.repositoryName, e.detail.imageDigest, version)]
  }

  /** The stages after validation; `ctxTag` is the tag validation stored in
      the context, if any. */
  function Gated(d: EmptyIndexDetection, e: Event, ctxTag: Option<string>, version: string,
                 o: Oracle): Invocation
  {
    var gates := GateCalls(e, version);
    if o.registryInit.Fail? then
      Invocation(LambdaError(RegistryInitErrorMessage, o.registryInit.error), gates[..1])
    else if o.manifestCheck.Fail? then
      Invocation(Response(ManifestValidationMessage, None), gates)
    else if version == ConvertedStrategy && (ctxTag == None || ctxTag == Some("")) then
      Invocation(Response(NoTagSkipMessage, None), gates)
    else
      var tag := if version == ConvertedStrategy then ctxTag.value + ConvertedTagSuffix else "";
      var w := InWorkspace(d, e.detail.repositoryName, e.detail.imageDigest, version, tag, o);
      Invocation(w.response, gates + w.calls)
  }

  /** The whole handler, with the empty-index detection as a parameter. */
  function Handle(d: EmptyIndexDetection, e: Event, version: string, o: Oracle): Invocation {
    var v := Validate(EmptyContext, e);
    if v.error.Some? then
      Invocation(LambdaError(ValidationErrorMessage, Leaf(Message(v.error.value))), [])
    else
      Gated(d, e, v.ctx.imageTag, version, o)
  }

  /** The handler as written: the build error's own text is compared with the
      empty-index text. */
  function HandleRequest(e: Event, version: string, o: Oracle): Invocation {
    Handle(ByMessage, e, version, o)
  }

  /** The handler with the empty-index condition recognised through the wrap chain. */
  function HandleRequestIntended(e: Event, version: string, o: Oracle): Invocation {
    Handle(ByCause, e, version, o)
  }
}

=== FILE: handler_properties.dfy ===
/** What HandleRequest promises: which (message, error) pair each stage's
    exit returns, which foreign calls precede it, and how the upstream retry
    signal (error or nil) lines up with the messages. */
module HandlerProperties {
  import opened Wrappers
  import opened Strings
  import opened Patterns
  import opened Events
  import opened Validation
  import opened Registry
  import opened Errors
  import opened Calls
  import opened IndexBuild
  import opened Handler

  predicate Valid(e: Event) { Validate(EmptyContext, e).error == None }

  /** The event passes validation, both registry gates and the V2 tag gate. */
  predicate PassesGates(e: Event, version: string, o: Oracle) {
    && Valid(e)
    && o.registryInit.Pass?
    && o.manifestCheck.Pass?
    && (version != ConvertedStrategy || e.detail.imageTag != "")
  }

  /** The tag the built index is pushed under. */
  function PushTag(e: Event, version: string): string {
    if version == ConvertedStrategy then e.detail.imageTag + ConvertedTagSuffix else ""
  }

  /** The image handed to the builder once the pull has succeeded. */
  function PulledImage(e: Event, o: Oracle): Image
    requires o.pull.Success?
  {
    Image(e.detail.repositoryName + "@" + e.detail.imageDigest, o.pull.value)
  }

  /** The tag validation stores in the context for a well-formed event. */
  function StoredTag(e: Event): Option<string> {
    if e.detail.imageTag == "" then None else Some(e.detail.imageTag)
  }

  /** For a well-formed event the context holds the repository, the digest and
      (when there is one) the tag exactly as they appear in the event. */
  lemma WellFormedContext(e: Event)
    requires Valid(e)
    ensures Validate(EmptyContext, e).ctx ==
            Context(Some(e.detail.repositoryName), Some(e.detail.imageDigest), StoredTag(e))
  {
    FirstViolationReported(EmptyContext, e, TagInvalid);
  }

  /** A well-formed event goes on to the registry stages with its own tag. */
  lemma ValidEventGated(d: EmptyIndexDetection, e: Event, version: string, o: Oracle)
    requires Valid(e)
    ensures Handle(d, e, version, o) == Gated(d, e, StoredTag(e), version, o)
  {
    WellFormedContext(e);
  }

  /** A validation failure reports the first violation and calls nothing. */
  lemma ValidationFailureExit(d: EmptyIndexDetection, e: Event, version: string, o: Oracle, v: Violation)
    requires Validate(EmptyContext, e).error == Some(v)
    ensures Handle(d, e, version, o) ==
            Invocation(Response(ValidationErrorMessage, Some(Leaf(Message(v)))), [])
  {
  }

  /** An event from any source other than "aws.ecr" is rejected with the source
      violation and no foreign call, whatever else it holds. */
  lemma SourceMismatchExit(d: EmptyIndexDetection, e: Event, version: string, o: Oracle)
    requires e.source != "aws.ecr"
    ensures Handle(d, e, version, o) ==
            Invocation(Response(ValidationErrorMessage, Some(Leaf(Message(SourceInvalid)))), [])
  {
    SourceMismatchAlwaysReported(EmptyContext, e);
  }

  /** A failing registry initialisation is propagated as an error after that one call. */
  lemma RegistryInitExit(d: EmptyIndexDetection, e: Event, version: string, o: Oracle)
    requires Valid(e) && o.registryInit.Fail?
    ensures Handle(d, e, version, o) ==
            Invocation(Response(RegistryInitErrorMessage, Some(o.registryInit.error)),
                       [InitRegistry(BuildEcrRegistryUrl(e))])
  {
  }

  /** A failing manifest check (the idempotency check) is a benign exit with a nil error. */
  lemma ManifestCheckExit(d: EmptyIndexDetection, e: Event, version: string, o: Oracle)
    requires Valid(e) && o.registryInit.Pass? && o.manifestCheck.Fail?
    ensures Handle(d, e, version, o) ==
            Invocation(Response(ManifestValidationMessage, None), GateCalls(e, version))
  {
  }

  /** V2 with an untagged image is a benign exit before any directory, pull or build. */
  lemma UntaggedV2Exit(d: EmptyIndexDetection, e: Event, o: Oracle)
    requires Valid(e) && o.registryInit.Pass? && o.manifestCheck.Pass?
    requires e.detail.imageTag == ""
    ensures Handle(d, e, ConvertedStrategy, o) == Invocation(Response(NoTagSkipMessage, None), GateCalls(e, ConvertedStrategy))
  {
    WellFormedContext(e);
  }

  // ----- the workspace stages -----

  /** Failures of directory creation, store initialisation and pull return
      the stage's message with the error; once the directory exists its
      removal is the last call. */
  lemma InWorkspaceEarlyExits(d: EmptyIndexDetection, repo: string, digest: string, version: string,
                              tag: string, o: Oracle)
    ensures o.tempDir.Fail? ==>
              InWorkspace(d, repo, digest, version, tag, o) ==
              Invocation(Response(DirectoryErrorMessage, Some(o.tempDir.error)), [CreateTempDir])
    ensures o.tempDir.Pass? && o.sociStore.Fail? ==>
              InWorkspace(d, repo, digest, version, tag, o) ==
              Invocation(Response(StoreErrorMessage, Some(o.sociStore.error)),
                         [CreateTempDir, InitSociStore, CleanUp])
    ensures o.tempDir.Pass? && o.sociStore.Pass? && o.pull.Failure? ==>
              InWorkspace(d, repo, digest, version, tag, o) ==
              Invocation(Response(PullErrorMessage, Some(o.pull.error)),
                         [CreateTempDir, InitSociStore, Pull(repo, digest), CleanUp])
  {
  }

  /** The outcome of the workspace stages once the pull has succeeded. */
  lemma WorkspaceAfterPull(d: EmptyIndexDetection, repo: string, digest: string, version: string,
                           tag: string, o: Oracle)
    requires o.tempDir.Pass? && o.sociStore.Pass? && o.pull.Success?
    ensures var b := BuildIndex(version, Image(repo + "@" + digest, o.pull.value), o.builder);
            var pre := [CreateTempDir, InitSociStore, Pull(repo, digest)] + b.calls;
            var w := InWorkspace(d, repo, digest, version, tag, o);
            && (b.result.Failure? && IsEmptyIndexError(d, b.result.error) ==>
                  w == Invocation(Response(SkipPushOnEmptyIndexMessage, None), pre + [CleanUp]))
            && (b.result.Failure? && !IsEmptyIndexError(d, b.result.error) ==>
                  w == Invocation(Response(BuildFailedMessage, Some(b.result.error)), pre + [CleanUp]))
            && (b.result.Success? && o.push.Fail? ==>
                  w == Invocation(Response(PushFailedMessage, Some(o.push.error)),
                                  pre + [Push(b.result.value, repo, tag), CleanUp]))
            && (b.result.Success? && o.push.Pass? ==>
                  w == Invocation(Response(BuildAndPushSuccessMessage, None),
                                  pre + [Push(b.result.value, repo, tag), CleanUp]))
  {
    var b := BuildIndex(version, Image(repo + "@" + digest, o.pull.value), o.builder);
    var pre := [CreateTempDir, InitSociStore, Pull(repo, digest)] + b.calls;
    forall c: Call ensures pre + [c] + [CleanUp] == pre + [c, CleanUp] {
    }
  }

  /** Appending the removal to calls that do not hold it makes it the last and only one. */
  lemma EndsWithCleanUp(pre: seq<Call>)
    requires CleanUp !in pre
    ensures var calls := pre + [CleanUp];
            calls[|calls| - 1] == CleanUp && CleanUp !in calls[..|calls| - 1]
  {
    assert (pre + [CleanUp])[..|pre|] == pre;
  }

  /** After a successful pull the removal closes the calls, once. */
  lemma CleanUpAfterPull(d: EmptyIndexDetection, repo: string, digest: string, version: string,
                         tag: string, o: Oracle)
    requires o.tempDir.Pass? && o.sociStore.Pass? && o.pull.Success?
    ensures var calls := InWorkspace(d, repo, digest, version, tag, o).calls;
            calls[|calls| - 1] == CleanUp && CleanUp !in calls[..|calls| - 1]
  {
    WorkspaceAfterPull(d, repo, digest, version, tag, o);
    var b := BuildIndex(version, Image(repo + "@" + digest, o.pull.value), o.builder);
    var pre := [CreateTempDir, InitSociStore, Pull(repo, digest)] + b.calls;
    assert CleanUp !in b.calls;
    if b.result.Failure? {
      EndsWithCleanUp(pre);
    } else {
      var push := Push(b.result.value, repo, tag);
      EndsWithCleanUp(pre + [push]);
      assert pre + [push] + [CleanUp] == pre + [push, CleanUp];
    }
  }

  /** Once the directory exists, its removal is the last call and is made
      only once; without a directory there is no removal. */
  lemma WorkspaceCleanUp(d: EmptyIndexDetection, repo: string, digest: string, version: string,
                         tag: string, o: Oracle)
    ensures var calls := InWorkspace(d, repo, digest, version, tag, o).calls;
            CleanUp in calls <==> o.tempDir.Pass?
    ensures var calls := InWorkspace(d, repo, digest, version, tag, o).calls;
            o.tempDir.Pass? ==> calls[|calls| - 1] == CleanUp && CleanUp !in calls[..|calls| - 1]
  {
    InWorkspaceEarlyExits(d, repo, digest, version, tag, o);
    if o.tempDir.Pass? && o.sociStore.Fail? {
      EndsWithCleanUp([CreateTempDir, InitSociStore]);
    } else if o.tempDir.Pass? && o.sociStore.Pass? && o.pull.Failure? {
      EndsWithCleanUp([CreateTempDir, InitSociStore, Pull(repo, digest)]);
    } else if o.tempDir.Pass? && o.sociStore.Pass? && o.pull.Success? {
      CleanUpAfterPull(d, repo, digest, version, tag, o);
      var calls := InWorkspace(d, repo, digest, version, tag, o).calls;
      assert calls[|calls| - 1] in calls;
    }
  }

  /** Every push the workspace stages make goes to `repo` under `tag`. */
  lemma WorkspacePushTarget(d: EmptyIndexDetection, repo: string, digest: string, version: string,
                            tag: string, o: Oracle)
    ensures forall c | c in InWorkspace(d, repo, digest, version, tag, o).calls && c.Push? ::
              c.repository == repo && c.tag == tag
  {
    InWorkspaceEarlyExits(d, repo, digest, version, tag, o);
    if o.tempDir.Pass? && o.sociStore.Pass? && o.pull.Success? {
      WorkspaceAfterPull(d, repo, digest, version, tag, o);
    }
  }

  /** The messages returned with a nil error. */
  const BenignMessages := {ManifestValidationMessage, NoTagSkipMessage, SkipPushOnEmptyIndexMessage,
                           BuildAndPushSuccessMessage}

  /** The workspace stages return a nil error exactly with a benign message. */
  lemma WorkspaceRetrySignal(d: EmptyIndexDetection, repo: string, digest: string, version: string,
                             tag: string, o: Oracle)
    ensures var r := InWorkspace(d, repo, digest, version, tag, o).response;
            r.error == None <==> r.message in BenignMessages
  {
    InWorkspaceEarlyExits(d, repo, digest, version, tag, o);
    if o.tempDir.Pass? && o.sociStore.Pass? && o.pull.Success? {
      WorkspaceAfterPull(d, repo, digest, version, tag, o);
    }
  }

  /** The workspace stages report success exactly when every one of them passed. */
  lemma WorkspaceSuccess(d: EmptyIndexDetection, repo: string, digest: string, version: string,
                         tag: string, o: Oracle)
    ensures InWorkspace(d, repo, digest, version, tag, o).response ==
            Response(BuildAndPushSuccessMessage, None) <==>
            && o.tempDir.Pass? && o.sociStore.Pass? && o.pull.Success?
            && BuildIndex(version, Image(repo + "@" + digest, o.pull.value), o.builder).result.Success?
            && o.push.Pass?
  {
    InWorkspaceEarlyExits(d, repo, digest, version, tag, o);
    if o.tempDir.Pass? && o.sociStore.Pass? && o.pull.Success? {
      WorkspaceAfterPull(d, repo, digest, version, tag, o);
    }
  }

  /** The two empty-index detections agree unless the build fails with an
      error whose chain carries the empty-index text. */
  lemma WorkspaceDetectionAgrees(repo: string, digest: string, version: string, tag: string, o: Oracle)
    requires o.tempDir.Pass? && o.sociStore.Pass? && o.pull.Success? ==>
             var b := BuildIndex(version, Image(repo + "@" + digest, o.pull.value), o.builder);
             !(b.result.Failure? && ChainHasMessage(b.result.error, EmptyIndexText))
    ensures InWorkspace(ByMessage, repo, digest, version, tag, o) ==
            InWorkspace(ByCause, repo, digest, version, tag, o)
  {
  }

  // ----- the whole handler -----

  /** Past the gates, the handler's calls are the gate calls followed by the
      workspace stages, run with the tag PushTag. */
  lemma EntersWorkspace(d: EmptyIndexDetection, e: Event, version: string, o: Oracle)
    requires PassesGates(e, version, o)
    ensures var w := InWorkspace(d, e.detail.repositoryName, e.detail.imageDigest, version, PushTag(e, version), o);
            Handle(d, e, version, o) == Invocation(w.response, GateCalls(e, version) + w.calls)
  {
    ValidEventGated(d, e, version, o);
    var t := StoredTag(e);
    assert !(version == ConvertedStrategy && (t == None || t == Some("")));
    assert (if version == ConvertedStrategy then t.value + ConvertedTagSuffix else "") == PushTag(e, version);
  }

  /** Failures of directory creation, store initialisation and pull return the
      stage's message with the error; once the directory exists, its removal is
      the last call. */
  lemma EarlyWorkspaceExits(d: EmptyIndexDetection, e: Event, version: string, o: Oracle)
    requires PassesGates(e, version, o)
    ensures o.tempDir.Fail? ==>
              Handle(d, e, version, o) ==
              Invocation(Response(DirectoryErrorMessage, Some(o.tempDir.error)),
                         GateCalls(e, version) + [CreateTempDir])
    ensures o.tempDir.Pass? && o.sociStore.Fail? ==>
              Handle(d, e, version, o) ==
              Invocation(Response(StoreErrorMessage, Some(o.sociStore.error)),
                         GateCalls(e, version) + [CreateTempDir, InitSociStore, CleanUp])
    ensures o.tempDir.Pass? && o.sociStore.Pass? && o.pull.Failure? ==>
              Handle(d, e, version, o) ==
              Invocation(Response(PullErrorMessage, Some(o.pull.error)),
                         GateCalls(e, version) +
                         [CreateTempDir, InitSociStore,
                          Pull(e.detail.repositoryName, e.detail.imageDigest), CleanUp])
  {
    EntersWorkspace(d, e, version, o);
    InWorkspaceEarlyExits(d, e.detail.repositoryName, e.detail.imageDigest, version, PushTag(e, version), o);
  }

  /** The pipeline reaches the build: every earlier stage succeeded. */
  predicate ReachesBuild(e: Event, version: string, o: Oracle) {
    PassesGates(e, version, o) && o.tempDir.Pass? && o.sociStore.Pass? && o.pull.Success?
  }

  /** The calls made up to and including the pull. */
  function UpToPull(e: Event, version: string): seq<Call> {
    GateCalls(e, version) +
    [CreateTempDir, InitSociStore, Pull(e.detail.repositoryName, e.detail.imageDigest)]
  }

  /** After the build: an empty-index error skips the push with a nil error,
      any other build error is reported with BuildFailedMessage, and a built
      index is pushed under PushTag; success is reported only when that push
      succeeds. */
  lemma BuildAndPushExits(d: EmptyIndexDetection, e: Event, version: string, o: Oracle)
    requires ReachesBuild(e, version, o)
    ensures var b := BuildIndex(version, PulledImage(e, o), o.builder);
            b.result.Failure? && IsEmptyIndexError(d, b.result.error) ==>
              Handle(d, e, version, o) ==
              Invocation(Response(SkipPushOnEmptyIndexMessage, None),
                         UpToPull(e, version) + b.calls + [CleanUp])
    ensures var b := BuildIndex(version, PulledImage(e, o), o.builder);
            b.result.Failure? && !IsEmptyIndexError(d, b.result.error) ==>
              Handle(d, e, version, o) ==
              Invocation(Response(BuildFailedMessage, Some(b.result.error)),
                         UpToPull(e, version) + b.calls + [CleanUp])
    ensures var b := BuildIndex(version, PulledImage(e, o), o.builder);
            b.result.Success? && o.push.Fail? ==>
              Handle(d, e, version, o) ==
              Invocation(Response(PushFailedMessage, Some(o.push.error)),
                         UpToPull(e, version) + b.calls +
                         [Push(b.result.value, e.detail.repositoryName, PushTag(e, version)), CleanUp])
    ensures var b := BuildIndex(version, PulledImage(e, o), o.builder);
            b.result.Success? && o.push.Pass? ==>
              Handle(d, e, version, o) ==
              Invocation(Response(BuildAndPushSuccessMessage, None),
                         UpToPull(e, version) + b.calls +
                         [Push(b.result.value, e.detail.repositoryName, PushTag(e, version)), CleanUp])
  {
    var repo, digest, tag := e.detail.repositoryName, e.detail.imageDigest, PushTag(e, version);
    var g := GateCalls(e, version);
    var w := InWorkspace(d, repo, digest, version, tag, o);
    EntersWorkspace(d, e, version, o);
    assert Handle(d, e, version, o) == Invocation(w.response, g + w.calls);
    WorkspaceAfterPull(d, repo, digest, version, tag, o);
    var b := BuildIndex(version, PulledImage(e, o), o.builder);
    var p := [CreateTempDir, InitSociStore, Pull(repo, digest)];
    forall tail: seq<Call> ensures g + (p + b.calls + tail) == UpToPull(e, version) + b.calls + tail {
      assert UpToPull(e, version) == g + p;
    }
  }

  /** The stage at which the handler exits, read off the inputs alone. */
  datatype Exit =
    | AtValidation | AtRegistryInit | AtManifestCheck | AtTagGate
    | AtDirectory | AtStore | AtPull | AtBuild

  function ExitOf(e: Event, version: string, o: Oracle): Exit {
    if !Valid(e) then AtValidation
    else if o.registryInit.Fail? then AtRegistryInit
    else if o.manifestCheck.Fail? then AtManifestCheck
    else if version == ConvertedStrategy && e.detail.imageTag == "" then AtTagGate
    else if o.tempDir.Fail? then AtDirectory
    else if o.sociStore.Fail? then AtStore
    else if o.pull.Failure? then AtPull
    else AtBuild
  }

  /** The handler's result at each gate exit, and past the gates its
      composition from the workspace stages. */
  lemma ExitFacts(d: EmptyIndexDetection, e: Event, version: string, o: Oracle)
    ensures ExitOf(e, version, o) == AtValidation ==>
              Handle(d, e, version, o) ==
              Invocation(Response(ValidationErrorMessage,
                                  Some(Leaf(Message(Validate(EmptyContext, e).error.value)))), [])
    ensures ExitOf(e, version, o) == AtRegistryInit ==>
              Handle(d, e, version, o) ==
              Invocation(Response(RegistryInitErrorMessage, Some(o.registryInit.error)),
                         [InitRegistry(BuildEcrRegistryUrl(e))])
    ensures ExitOf(e, version, o) == AtManifestCheck ==>
              Handle(d, e, version, o) == Invocation(Response(ManifestValidationMessage, None), GateCalls(e, version))
    ensures ExitOf(e, version, o) == AtTagGate ==>
              Handle(d, e, version, o) == Invocation(Response(NoTagSkipMessage, None), GateCalls(e, version))
    ensures ExitOf(e, version, o) in {AtDirectory, AtStore, AtPull, AtBuild} <==> PassesGates(e, version, o)
    ensures PassesGates(e, version, o) ==>
              var w := InWorkspace(d, e.detail.repositoryName, e.detail.imageDigest, version,
                                   PushTag(e, version), o);
              Handle(d, e, version, o) == Invocation(w.response, GateCalls(e, version) + w.calls)
  {
    if !Valid(e) {
      ValidationFailureExit(d, e, version, o, Validate(EmptyContext, e).error.value);
    } else if o.registryInit.Fail? {
      RegistryInitExit(d, e, version, o);
    } else if o.manifestCheck.Fail? {
      ManifestCheckExit(d, e, version, o);
    } else if version == ConvertedStrategy && e.detail.imageTag == "" {
      UntaggedV2Exit(d, e, o);
    } else {
      EntersWorkspace(d, e, version, o);
    }
  }

  /** The upstream retry signal: the error is nil exactly when the message is
      one of the benign ones, and a returned error always comes with a
      failure message. */
  lemma RetrySignal(d: EmptyIndexDetection, e: Event, version: string, o: Oracle)
    ensures Handle(d, e, version, o).response.error == None <==>
            Handle(d, e, version, o).response.message in BenignMessages
  {
    ExitFacts(d, e, version, o);
    WorkspaceRetrySignal(d, e.detail.repositoryName, e.detail.imageDigest, version, PushTag(e, version), o);
  }

  /** Success is reported exactly when every stage passed and the push succeeded. */
  lemma SuccessOnlyAfterPush(d: EmptyIndexDetection, e: Event, version: string, o: Oracle)
    ensures Handle(d, e, version, o).response == Response(BuildAndPushSuccessMessage, None) <==>
            && ReachesBuild(e, version, o)
            && BuildIndex(version, PulledImage(e, o), o.builder).result.Success?
            && o.push.Pass?
  {
    ExitFacts(d, e, version, o);
    WorkspaceSuccess(d, e.detail.repositoryName, e.detail.imageDigest, version, PushTag(e, version), o);
  }

  /** An exit before the workspace stages creates no directory and performs no
      pull, build or push: only the registry gates may have been called. */
  lemma GateExitsDoNoWork(d: EmptyIndexDetection, e: Event, version: string, o: Oracle)
    requires !PassesGates(e, version, o)
    ensures forall c | c in Handle(d, e, version, o).calls :: c.InitRegistry? || c.ValidateImageDigest?
  {
    ExitFacts(d, e, version, o);
  }

  /** A push, when it happens, goes to the event's repository under PushTag:
      `<tag>-soci` for V2 and no tag otherwise. */
  lemma PushTarget(d: EmptyIndexDetection, e: Event, version: string, o: Oracle)
    ensures forall c | c in Handle(d, e, version, o).calls && c.Push? ::
              c.repository == e.detail.repositoryName && c.tag == PushTag(e, version)
  {
    ExitFacts(d, e, version, o);
    WorkspacePushTarget(d, e.detail.repositoryName, e.detail.imageDigest, version, PushTag(e, version), o);
  }

  /** A call absent from `g` keeps, in `g + w`, the position properties it has in `w`. */
  lemma AppendedLast(g: seq<Call>, w: seq<Call>, c: Call)
    requires c !in g
    ensures c in g + w <==> c in w
    ensures |w| > 0 && w[|w| - 1] == c && c !in w[..|w| - 1] ==>
              (g + w)[|g + w| - 1] == c && c !in (g + w)[..|g + w| - 1]
  {
    if |w| > 0 {
      assert (g + w)[..|g + w| - 1] == g + w[..|w| - 1];
    }
  }

  /** The directory is removed exactly when it was created, once, as the last call. */
  lemma CleanUpOnceAndLast(d: EmptyIndexDetection, e: Event, version: string, o: Oracle)
    ensures var calls := Handle(d, e, version, o).calls;
            CleanUp in calls <==> PassesGates(e, version, o) && o.tempDir.Pass?
    ensures var calls := Handle(d, e, version, o).calls;
            CleanUp in calls ==> calls[|calls| - 1] == CleanUp && CleanUp !in calls[..|calls| - 1]
  {
    ExitFacts(d, e, version, o);
    if PassesGates(e, version, o) {
      var repo, digest, tag := e.detail.repositoryName, e.detail.imageDigest, PushTag(e, version);
      WorkspaceCleanUp(d, repo, digest, version, tag, o);
      AppendedLast(GateCalls(e, version), InWorkspace(d, repo, digest, version, tag, o).calls, CleanUp);
    }
  }

  // ----- the empty-index comparison -----

  /** As written: a Convert or Build error comes back wrapped, so its text never
      equals the empty-index text, even when the builder failed with exactly
      the empty-index error. */
  lemma BuilderErrorNeverMatchesText(version: string, image: Image, o: BuilderOracle)
    requires SetupSucceeds(o)
    requires (version == ConvertedStrategy && o.convert.Failure?) || (version != ConvertedStrategy && o.build.Fail?)
    ensures BuildIndex(version, image, o).result.Failure?
    ensures !IsEmptyIndexError(ByMessage, BuildIndex(version, image, o).result.error)
  {
    BuilderErrorsWrapped(version, image, o);
    var err := BuildIndex(version, image, o).result.error;
    WrappedMessageStartsWithPrefix(err.prefix, err.cause);
    assert err.prefix[0] == 'f';
    assert Text(err)[0] == 'f';
    assert EmptyIndexText[0] == 'n';
  }

  /** As written: when the legacy builder reports the empty-index error, the
      handler returns BuildFailedMessage with a non-nil error (so the
      invocation is retried) instead of the benign skip. */
  lemma AsWrittenEmptyIndexReportedAsFailure(e: Event, o: Oracle)
    requires ReachesBuild(e, "V1", o) && SetupSucceeds(o.builder)
    requires o.builder.build == Fail(Leaf(EmptyIndexText))
    ensures HandleRequest(e, "V1", o).response ==
            Response(BuildFailedMessage, Some(Wrapped(BuildErrorPrefix, Leaf(EmptyIndexText))))
  {
    BuildAndPushExits(ByMessage, e, "V1", o);
    BuilderErrorNeverMatchesText("V1", PulledImage(e, o), o.builder);
  }

  /** Corrected: recognising the empty-index error anywhere along the wrap
      chain turns a builder's empty-index failure into the benign skip, with no
      push and the directory still removed last. */
  lemma IntendedEmptyIndexSkipsPush(e: Event, version: string, o: Oracle)
    requires ReachesBuild(e, version, o) && SetupSucceeds(o.builder)
    requires || (version == ConvertedStrategy && o.builder.convert.Failure? &&
                 ChainHasMessage(o.builder.convert.error, EmptyIndexText))
             || (version != ConvertedStrategy && o.builder.build.Fail? &&
                 ChainHasMessage(o.builder.build.error, EmptyIndexText))
    ensures HandleRequestIntended(e, version, o).response == Response(SkipPushOnEmptyIndexMessage, None)
    ensures forall c | c in HandleRequestIntended(e, version, o).calls :: !c.Push?
    ensures HandleRequestIntended(e, version, o).calls[|HandleRequestIntended(e, version, o).calls| - 1] == CleanUp
  {
    BuilderErrorsWrapped(version, PulledImage(e, o), o.builder);
    BuildAndPushExits(ByCause, e, version, o);
    var b := BuildIndex(version, PulledImage(e, o), o.builder);
    assert forall c | c in b.calls :: !c.Push?;
  }

  /** The correction changes nothing unless the build error's chain carries the
      empty-index text. */
  lemma IntendedAgreesElsewhere(e: Event, version: string, o: Oracle)
    requires ReachesBuild(e, version, o) ==>
             var b := BuildIndex(version, PulledImage(e, o), o.builder);
             !(b.result.Failure? && ChainHasMessage(b.result.error, EmptyIndexText))
    ensures HandleRequestIntended(e, version, o) == HandleRequest(e, version, o)
  {
    if Valid(e) {
      ValidEventGated(ByMessage, e, version, o);
      ValidEventGated(ByCause, e, version, o);
      if PassesGates(e, version, o) {
        WorkspaceDetectionAgrees(e.detail.repositoryName, e.detail.imageDigest, version,
                                 PushTag(e, version), o);
      }
    }
  }

  // ----- end-to-end scenarios -----

  const Hex16 := "0123456789abcdef"
  const Hex32 := Hex16 + Hex16

  lemma Hex32IsHex()
    ensures |Hex32| == 32 && AllHex(Hex32) && AllHex(Hex32[..31])
  {
    assert AllHex(Hex16);
    AllHexConcat(Hex16, Hex16);
  }

  /** "sha256:" followed by 32 hexadecimal characters passes; with 31 it fails. */
  lemma DigestBoundaryExamples()
    ensures ContainsDigest("sha256:" + Hex32)
    ensures !ContainsDigest("sha256:" + Hex32[..31])
  {
    Hex32IsHex();
    assert AllAlnum("sha256"[1..]);
    DigestBoundary("sha256", Hex32);
    DigestBoundary("sha256", Hex32[..31]);
    assert "sha256:" + Hex32 == "sha256" + ":" + Hex32;
    assert "sha256:" + Hex32[..31] == "sha256" + ":" + Hex32[..31];
  }

  const Hex64 := Hex32 + Hex32

  /** A well-formed PUSH event for `myrepo`, tagged "latest". */
  const ScenarioEvent := Event("aws.ecr", "123456789012", "ECR Image Action", "us-east-1",
                               Detail("PUSH", "SUCCESS", "myrepo", "sha256" + ":" + Hex64, "latest"))

  lemma ScenarioDigestValid()
    ensures ContainsDigest(ScenarioEvent.detail.imageDigest)
  {
    Hex32IsHex();
    AllHexConcat(Hex32, Hex32);
    assert AllAlnum("sha256"[1..]);
    DigestBoundary("sha256", Hex64);
  }

  lemma ScenarioEventValid()
    ensures Valid(ScenarioEvent)
  {
    var e := ScenarioEvent;
    assert AccountIdAt(e.account, 0);
    assert IsLowerAlnum(e.detail.repositoryName[0]);
    ScenarioDigestValid();
    assert IsWordChar(e.detail.imageTag[0]);
    assert forall w :: !Violated(e, w);
    FirstViolationReported(EmptyContext, e, SourceInvalid);
  }

  /** Every foreign call of the pipeline succeeds; the builder's results are as given. */
  predicate AllStagesPass(o: Oracle) {
    && o.registryInit.Pass? && o.manifestCheck.Pass? && o.tempDir.Pass? && o.sociStore.Pass?
    && o.pull.Success? && SetupSucceeds(o.builder) && o.push.Pass?
  }

  /** Scenario A: legacy strategy, one index record: the record's descriptor is
      pushed untagged and success is reported. */
  lemma ScenarioLegacy(o: Oracle, index: Descriptor, createdAt: int)
    requires AllStagesPass(o) && o.builder.build.Pass?
    requires o.builder.collection == Success([IndexRecord(index, createdAt)])
    ensures HandleRequest(ScenarioEvent, "V1", o).response ==
            Response("Successfully built and pushed SOCI index", None)
    ensures Push(index, "myrepo", "") in HandleRequest(ScenarioEvent, "V1", o).calls
  {
    ScenarioEventValid();
    BuildAndPushExits(ByMessage, ScenarioEvent, "V1", o);
  }

  /** With every stage passing, a tagged valid event under the converting
      strategy pushes the converted index to its repository under
      `<tag>-soci` and reports success. */
  lemma ConvertedPushed(e: Event, o: Oracle, index: Descriptor)
    requires Valid(e) && e.detail.imageTag != ""
    requires AllStagesPass(o) && o.builder.convert == Success(index)
    ensures HandleRequest(e, ConvertedStrategy, o).response == Response(BuildAndPushSuccessMessage, None)
    ensures Push(index, e.detail.repositoryName, e.detail.imageTag + ConvertedTagSuffix)
              in HandleRequest(e, ConvertedStrategy, o).calls
  {
    BuildAndPushExits(ByMessage, e, ConvertedStrategy, o);
    var b := BuildIndex(ConvertedStrategy, PulledImage(e, o), o.builder);
    assert b.result == Success(index);
    var push := Push(index, e.detail.repositoryName, PushTag(e, ConvertedStrategy));
    var calls := UpToPull(e, ConvertedStrategy) + b.calls + [push, CleanUp];
    assert HandleRequest(e, ConvertedStrategy, o).calls == calls;
    assert calls[|calls| - 2] == push;
  }

  /** Scenario B: converted strategy with tag "latest": the converted index is
      pushed under "latest-soci". */
  lemma ScenarioConverted(o: Oracle, index: Descriptor)
    requires AllStagesPass(o) && o.builder.convert == Success(index)
    ensures HandleRequest(ScenarioEvent, ConvertedStrategy, o).response ==
            Response("Successfully built and pushed SOCI index", None)
    ensures Push(index, "myrepo", "latest-soci") in HandleRequest(ScenarioEvent, ConvertedStrategy, o).calls
  {
    var e := ScenarioEvent;
    ScenarioEventValid();
    ConvertedPushed(e, o, index);
    assert e.detail.repositoryName == "myrepo";
    assert e.detail.imageTag + ConvertedTagSuffix == "latest-soci";
  }

  /** Scenario C: a five-digit account is a validation error with no foreign call at all. */
  lemma ScenarioShortAccount(e: Event, version: string, o: Oracle)
    requires e.account == "12345"
    ensures HandleRequest(e, version, o).response.message == ValidationErrorMessage
    ensures HandleRequest(e, version, o).response.error.Some?
    ensures HandleRequest(e, version, o).calls == []
  {
    ShortAccountExample(e);
    ValidationFailureExit(ByMessage, e, version, o, Validate(EmptyContext, e).error.value);
  }
}

=== FILE: index_build.dfy ===
/** buildIndex: selects the build strategy on the exact version string "V2",
    wraps builder errors with a stage prefix, and for the legacy strategy
    returns the most recently created index record of the image. */
module IndexBuild {
  import opened Wrappers
  import opened Errors
  import opened Calls

  /** The results the foreign builder calls yield for one invocation. */
  datatype BuilderOracle = BuilderOracle(
    artifactsDb: Outcome<Error>,
    contentStore: Outcome<Error>,
    indexBuilder: Outcome<Error>,
    convert: Result<Descriptor, Error>,
    build: Outcome<Error>,
    collection: Result<seq<IndexRecord>, Error>)

  /** buildIndex's descriptor-or-error and the foreign calls it made. */
  datatype Built = Built(result: Result<Descriptor, Error>, calls: seq<Call>)

  const ConvertedStrategy := "V2"
  const ConvertErrorPrefix := "failed to convert OCI index: "
  const BuildErrorPrefix := "failed to build SOCI index: "
  const NoIndicesText := "no SOCI indices found in OCI store"

  /** `d` is the descriptor of a record created no earlier than any other record. */
  predicate IsLatestDescriptor(rs: seq<IndexRecord>, d: Descriptor) {
    exists k | 0 <= k < |rs| ::
      rs[k].descriptor == d && forall m :: 0 <= m < |rs| ==> rs[m].createdAt <= rs[k].createdAt
  }

  /** The position the last element takes after sorting by creation time
      ascending; among records created at the same time the later one wins. */
  function LatestIndex(rs: seq<IndexRecord>): (k: nat)
    requires |rs| > 0
    ensures k < |rs|
    ensures forall m :: 0 <= m < |rs| ==> rs[m].createdAt <= rs[k].createdAt
  {
    if |rs| == 1 then 0
    else
      var k := LatestIndex(rs[..|rs| - 1]);
      if rs[k].createdAt <= rs[|rs| - 1].createdAt then |rs| - 1 else k
  }

  /** The foreign calls buildIndex itself makes. */
  predicate IsBuilderCall(c: Call) {
    || c.InitArtifactsDb? || c.InitContainerdStore? || c.NewIndexBuilder?
    || c.Convert? || c.BuildSociIndex? || c.GetIndexDescriptorCollection?
  }

  function BuildIndex(version: string, image: Image, o: BuilderOracle): (r: Built)
    ensures forall c | c in r.calls :: IsBuilderCall(c)
    ensures Convert(image) in r.calls ==> version == ConvertedStrategy
    ensures BuildSociIndex(image) in r.calls ==> version != ConvertedStrategy
    ensures version == ConvertedStrategy && r.result.Success? ==>
              o.convert.Success? && r.result.value == o.convert.value
    ensures version != ConvertedStrategy && r.result.Success? ==>
              o.collection.Success? && IsLatestDescriptor(o.collection.value, r.result.value)
    ensures version == ConvertedStrategy && SetupSucceeds(o) && o.convert.Success? ==>
              r.result == Success(o.convert.value)
    ensures version != ConvertedStrategy && SetupSucceeds(o) && o.build.Pass? && o.collection.Success? ==>
              (r.result.Success? <==> |o.collection.value| > 0)
  {
    var setup := [InitArtifactsDb, InitContainerdStore, NewIndexBuilder];
    if o.artifactsDb.Fail? then Built(Failure(o.artifactsDb.error), setup[..1])
    else if o.contentStore.Fail? then Built(Failure(o.contentStore.error), setup[..2])
    else if o.indexBuilder.Fail? then Built(Failure(o.indexBuilder.error), setup)
    else if version == ConvertedStrategy then
      var calls := setup + [Convert(image)];
      match o.convert
      case Failure(err) => Built(Failure(Wrapped(ConvertErrorPrefix, err)), calls)
      case Success(d) => Built(Success(d), calls)
    else
      var calls := setup + [BuildSociIndex(image)];
      if o.build.Fail? then Built(Failure(Wrapped(BuildErrorPrefix, o.build.error)), calls)
      else
        var calls := calls + [GetIndexDescriptorCollection(image)];
        match o.collection
        case Failure(err) => Built(Failure(err), calls)
        case Success(rs) =>
          if |rs| == 0 then Built(Failure(Leaf(NoIndicesText)), calls)
          else Built(Success(rs[LatestIndex(rs)].descriptor), calls)
  }

  /** Whether the builder calls before the strategy branch all succeed. */
  predicate SetupSucceeds(o: BuilderOracle) {
    o.artifactsDb.Pass? && o.contentStore.Pass? && o.indexBuilder.Pass?
  }

  /** Only the exact string "V2" selects the converting builder; every other
      version string, "V1", "" and "v2" among them, selects the legacy build. */
  lemma StrategySelection(version: string, image: Image, o: BuilderOracle)
    requires SetupSucceeds(o)
    ensures version == ConvertedStrategy ==>
              BuildIndex(version, image, o).calls ==
              [InitArtifactsDb, InitContainerdStore, NewIndexBuilder, Convert(image)]
    ensures version != ConvertedStrategy ==>
              BuildIndex(version, image, o).calls[..4] ==
              [InitArtifactsDb, InitContainerdStore, NewIndexBuilder, BuildSociIndex(image)]
  {
  }

  /** A failing Convert or Build call comes back wrapped with its stage's prefix;
      every other failing call's error comes back as it is. */
  lemma BuilderErrorsWrapped(version: string, image: Image, o: BuilderOracle)
    requires SetupSucceeds(o)
    ensures version == ConvertedStrategy && o.convert.Failure? ==>
              BuildIndex(version, image, o).result == Failure(Wrapped(ConvertErrorPrefix, o.convert.error))
    ensures version != ConvertedStrategy && o.build.Fail? ==>
              BuildIndex(version, image, o).result == Failure(Wrapped(BuildErrorPrefix, o.build.error))
    ensures version != ConvertedStrategy && o.build.Pass? && o.collection.Failure? ==>
              BuildIndex(version, image, o).result == Failure(o.collection.error)
  {
  }

  /** A setup failure is returned unchanged before any strategy call. */
  lemma SetupErrorsUnwrapped(version: string, image: Image, o: BuilderOracle)
    ensures o.artifactsDb.Fail? ==>
              BuildIndex(version, image, o) == Built(Failure(o.artifactsDb.error), [InitArtifactsDb])
    ensures o.artifactsDb.Pass? && o.contentStore.Fail? ==>
              BuildIndex(version, image, o) ==
              Built(Failure(o.contentStore.error), [InitArtifactsDb, InitContainerdStore])
    ensures o.artifactsDb.Pass? && o.contentStore.Pass? && o.indexBuilder.Fail? ==>
              BuildIndex(version, image, o) ==
              Built(Failure(o.indexBuilder.error), [InitArtifactsDb, InitContainerdStore, NewIndexBuilder])
  {
  }

  /** A legacy build that succeeds but finds no index records is an error. */
  lemma EmptyCollectionIsError(version: string, image: Image, o: BuilderOracle)
    requires SetupSucceeds(o) && version != ConvertedStrategy && o.build.Pass?
    requires o.collection == Success([])
    ensures BuildIndex(version, image, o).result == Failure(Leaf(NoIndicesText))
  {
  }

  /** A record created strictly after every other one is the one returned. */
  lemma StrictlyLatestSelected(version: string, image: Image, o: BuilderOracle, k: nat)
    requires SetupSucceeds(o) && version != ConvertedStrategy && o.build.Pass? && o.collection.Success?
    requires k < |o.collection.value|
    requires forall m :: 0 <= m < |o.collection.value| && m != k ==>
               o.collection.value[m].createdAt < o.collection.value[k].createdAt
    ensures BuildIndex(version, image, o).result == Success(o.collection.value[k].descriptor)
  {
  }

  /** Two records created at T1 < T2: the one created at T2 is returned. */
  lemma LaterOfTwoSelected(version: string, image: Image, o: BuilderOracle, r1: IndexRecord, r2: IndexRecord)
    requires SetupSucceeds(o) && version != ConvertedStrategy && o.build.Pass?
    requires o.collection == Success([r1, r2]) && r1.createdAt < r2.createdAt
    ensures BuildIndex(version, image, o).result == Success(r2.descriptor)
  {
    StrictlyLatestSelected(version, image, o, 1);
  }
}

=== FILE: patterns.dfy ===
/** The four pattern checks of the event validator, as decided by an
    unanchored regular-expression search: each holds when SOME substring of
    the input matches the pattern. Grammar.dfy proves each predicate equal to
    a search for the pattern's own language. */
module Patterns {
  import opened Strings

  /** `[0-9]{12}` found anywhere: twelve consecutive ASCII digits. */
  predicate ContainsAccountId(s: string) {
    exists i | 0 <= i < |s| :: AccountIdAt(s, i)
  }

  /** Twelve ASCII digits start at `i`. */
  predicate AccountIdAt(s: string, i: int) {
    0 <= i && i + 12 <= |s| && AllDigits(s[i..i + 12])
  }

  /** The repository pattern found anywhere: some character in `[a-z0-9]`. */
  predicate ContainsRepositoryChar(s: string) {
    exists k | 0 <= k < |s| :: IsLowerAlnum(s[k])
  }

  /** The tag pattern found anywhere: some character in `[A-Za-z0-9_]`. */
  predicate ContainsTagChar(s: string) {
    exists k | 0 <= k < |s| :: IsWordChar(s[k])
  }

  /** The first character of the digest's algorithm part: `[[A-Za-z]`. */
  predicate IsDigestLead(c: char) { c == '[' || IsLetter(c) }

  /** A digest match whose algorithm run starts at `i` and whose colon is at `j`:
      `s[i]` is `[` or a letter, `s[i+1..j]` is alphanumeric, and the 32
      characters after the colon are hexadecimal. */
  predicate DigestAt(s: string, i: int, j: int) {
    && 0 <= i < j
    && j + 33 <= |s|
    && IsDigestLead(s[i])
    && AllAlnum(s[i + 1..j])
    && s[j] == ':'
    && AllHex(s[j + 1..j + 33])
  }

  /** The digest pattern found anywhere. */
  predicate ContainsDigest(s: string) {
    exists i, j | 0 <= i < j < |s| :: DigestAt(s, i, j)
  }
}

=== FILE: registry.dfy ===
/** buildEcrRegistryUrl: the registry host an image action event refers to. */
module Registry {
  import opened Wrappers
  import opened Strings
  import opened Events

  const EcrInfix := ".dkr.ecr."
  const AwsDomain := ".amazonaws.com"
  const ChinaAwsDomain := ".amazonaws.com.cn"

  /** `<account>.dkr.ecr.<region><domain>`, where the China-partition domain is
      chosen exactly when the region name starts with "cn". */
  function BuildEcrRegistryUrl(e: Event): (r: string)
    ensures HasPrefix(r, e.account + EcrInfix + e.region)
    ensures HasPrefix(e.region, "cn") <==> HasSuffix(r, ChinaAwsDomain)
    ensures !HasPrefix(e.region, "cn") ==> HasSuffix(r, AwsDomain)
    ensures |r| == |e.account| + |EcrInfix| + |e.region| +
                   (if HasPrefix(e.region, "cn") then |ChinaAwsDomain| else |AwsDomain|)
  {
    var domain := if HasPrefix(e.region, "cn") then ChinaAwsDomain else AwsDomain;
    var r := e.account + EcrInfix + e.region + domain;
    assert r[..|e.account + EcrInfix + e.region|] == e.account + EcrInfix + e.region;
    assert r[|r| - |domain|..] == domain;
    assert r[|r| - 1] == domain[|domain| - 1];
    r
  }

  /** Recovers the region from a registry URL, given the account it was built for. */
  function ParseRegion(account: string, url: string): Option<string> {
    var head := account + EcrInfix;
    if !HasPrefix(url, head) then None
    else
      var rest := url[|head|..];
      if HasPrefix(rest, "cn") && HasSuffix(rest, ChinaAwsDomain) then
        Some(rest[..|rest| - |ChinaAwsDomain|])
      else if !HasPrefix(rest, "cn") && HasSuffix(rest, AwsDomain) then
        Some(rest[..|rest| - |AwsDomain|])
      else None
  }

  /** Appending a suffix leaves what precedes it recoverable. */
  lemma SplitAppended(a: string, b: string)
    ensures (a + b)[..|a|] == a && (a + b)[|a|..] == b
  {
  }

  /** A domain that starts with a dot leaves the region's "cn" prefix, and its
      absence, visible in `region + domain`. */
  lemma ChinaPrefixKept(region: string, domain: string)
    requires |domain| > 0 && domain[0] == '.'
    ensures HasPrefix(region + domain, "cn") <==> HasPrefix(region, "cn")
  {
    var s := region + domain;
    if |region| >= 2 {
      assert s[..2] == region[..2];
    } else if |region| == 1 {
      assert s[1] == '.';
    } else {
      assert s[0] == '.';
    }
  }

  /** The URL determines the region: parsing it back yields the event's region. */
  lemma RegistryUrlRoundTrip(e: Event)
    ensures ParseRegion(e.account, BuildEcrRegistryUrl(e)) == Some(e.region)
  {
    var head := e.account + EcrInfix;
    var cn := HasPrefix(e.region, "cn");
    var domain := if cn then ChinaAwsDomain else AwsDomain;
    var rest := e.region + domain;
    assert BuildEcrRegistryUrl(e) == head + rest;
    SplitAppended(head, rest);
    SplitAppended(e.region, domain);
    ChinaPrefixKept(e.region, domain);
    var url := BuildEcrRegistryUrl(e);
    assert HasPrefix(url, head) && url[|head|..] == rest;
    assert HasSuffix(rest, domain) && rest[..|rest| - |domain|] == e.region;
  }
}

=== FILE: strings.dfy ===
/** Character classes used by the event patterns, and prefix/suffix tests on strings. */
module Strings {

  predicate IsDigit(c: char) { '0' <= c <= '9' }
  predicate IsLower(c: char) { 'a' <= c <= 'z' }
  predicate IsUpper(c: char) { 'A' <= c <= 'Z' }
  predicate IsLetter(c: char) { IsLower(c) || IsUpper(c) }
  predicate IsAlnum(c: char) { IsLetter(c) || IsDigit(c) }

  /** `[a-z0-9]` */
  predicate IsLowerAlnum(c: char) { IsLower(c) || IsDigit(c) }

  /** `[A-Za-z0-9_]` */
  predicate IsWordChar(c: char) { IsAlnum(c) || c == '_' }

  /** `[A-Fa-f0-9]` */
  predicate IsHex(c: char) { IsDigit(c) || 'a' <= c <= 'f' || 'A' <= c <= 'F' }

  predicate AllDigits(s: string) { forall k :: 0 <= k < |s| ==> IsDigit(s[k]) }
  predicate AllAlnum(s: string) { forall k :: 0 <= k < |s| ==> IsAlnum(s[k]) }
  predicate AllHex(s: string) { forall k :: 0 <= k < |s| ==> IsHex(s[k]) }

  /** Go's strings.HasPrefix. */
  predicate HasPrefix(s: string, p: string) { |p| <= |s| && s[..|p|] == p }

  /** Go's strings.HasSuffix. */
  predicate HasSuffix(s: string, p: string) { |p| <= |s| && s[|s| - |p|..] == p }

  /** Hexadecimal strings are closed under concatenation. */
  lemma AllHexConcat(a: string, b: string)
    requires AllHex(a) && AllHex(b)
    ensures AllHex(a + b)
  {
    forall k | 0 <= k < |a + b| ensures IsHex((a + b)[k]) {
      if k < |a| {
        assert (a + b)[k] == a[k];
      } else {
        assert (a + b)[k] == b[k - |a|];
      }
    }
  }
}

=== FILE: validation.dfy ===
/** validateEvent: every check is evaluated, violations are collected in a
    fixed order, the first one is reported, and the context receives the
    repository, digest and tag only when that field's own check passes. */
module Validation {
  import opened Wrappers
  import opened Strings
  import opened Patterns
  import opened Events

  /** One violation per check, declared in the order the validator records them. */
  datatype Violation =
    | SourceInvalid
    | AccountEmpty
    | DetailTypeInvalid
    | ActionTypeInvalid
    | ResultInvalid
    | RepositoryEmpty
    | DigestEmpty
    | AccountInvalid
    | RepositoryInvalid
    | DigestInvalid
    | TagInvalid

  /** The error text the validator attaches to each violation. */
  function Message(v: Violation): string {
    match v
    case SourceInvalid => "the event's 'source' must be 'aws.ecr'"
    case AccountEmpty => "the event's 'account' must not be empty"
    case DetailTypeInvalid => "the event's 'detail-type' must be 'ECR Image Action'"
    case ActionTypeInvalid => "the event's 'detail.action-type' must be 'PUSH'"
    case ResultInvalid => "the event's 'detail.result' must be 'SUCCESS'"
    case RepositoryEmpty => "the event's 'detail.repository-name' must not be empty"
    case DigestEmpty => "the event's 'detail.image-digest' must not be empty"
    case AccountInvalid => "the event's 'account' must be a valid AWS account ID"
    case RepositoryInvalid => "the event's 'detail.repository-name' must be a valid repository name"
    case DigestInvalid => "the event's 'detail.image-digest' must be a valid image digest"
    case TagInvalid => "the event's 'detail.image-tag' must be empty or a valid image tag"
  }

  /** Position of each check in the validator's evaluation order. */
  function Rank(v: Violation): nat {
    match v
    case SourceInvalid => 0
    case AccountEmpty => 1
    case DetailTypeInvalid => 2
    case ActionTypeInvalid => 3
    case ResultInvalid => 4
    case RepositoryEmpty => 5
    case DigestEmpty => 6
    case AccountInvalid => 7
    case RepositoryInvalid => 8
    case DigestInvalid => 9
    case TagInvalid => 10
  }

  /** Whether the event fails the check that `v` reports, judged on its own. */
  predicate Violated(e: Event, v: Violation) {
    match v
    case SourceInvalid => e.source != "aws.ecr"
    case AccountEmpty => e.account == ""
    case DetailTypeInvalid => e.detailType != "ECR Image Action"
    case ActionTypeInvalid => e.detail.actionType != "PUSH"
    case ResultInvalid => e.detail.result != "SUCCESS"
    case RepositoryEmpty => e.detail.repositoryName == ""
    case DigestEmpty => e.detail.imageDigest == ""
    case AccountInvalid => !ContainsAccountId(e.account)
    case RepositoryInvalid => !ContainsRepositoryChar(e.detail.repositoryName)
    case DigestInvalid => !ContainsDigest(e.detail.imageDigest)
    case TagInvalid => e.detail.imageTag != "" && !ContainsTagChar(e.detail.imageTag)
  }

  /** Every check, in the order the validator evaluates it. */
  const Checks: seq<Violation> := [
    SourceInvalid, AccountEmpty, DetailTypeInvalid, ActionTypeInvalid, ResultInvalid,
    RepositoryEmpty, DigestEmpty, AccountInvalid, RepositoryInvalid, DigestInvalid, TagInvalid]

  /** Evaluates each of `cs` in turn and records the ones the event fails. */
  function Collect(e: Event, cs: seq<Violation>): seq<Violation> {
    if cs == [] then []
    else (if Violated(e, cs[0]) then [cs[0]] else []) + Collect(e, cs[1..])
  }

  /** The violations the validator collects, in the order it collects them. */
  function Violations(e: Event): seq<Violation> {
    Collect(e, Checks)
  }

  /** The validator's two results: the (possibly partially) enriched context
      and the first violation, if any. */
  datatype Validated = Validated(ctx: Context, error: Option<Violation>)

  function Validate(ctx: Context, e: Event): (r: Validated)
    ensures !Violated(e, RepositoryInvalid) ==> r.ctx.repositoryName == Some(e.detail.repositoryName)
    ensures Violated(e, RepositoryInvalid) ==> r.ctx.repositoryName == ctx.repositoryName
    ensures !Violated(e, DigestInvalid) ==> r.ctx.imageDigest == Some(e.detail.imageDigest)
    ensures Violated(e, DigestInvalid) ==> r.ctx.imageDigest == ctx.imageDigest
    ensures e.detail.imageTag != "" && !Violated(e, TagInvalid) ==> r.ctx.imageTag == Some(e.detail.imageTag)
    ensures e.detail.imageTag == "" || Violated(e, TagInvalid) ==> r.ctx.imageTag == ctx.imageTag
  {
    var d := e.detail;
    var repositoryName := if ContainsRepositoryChar(d.repositoryName) then Some(d.repositoryName)
                          else ctx.repositoryName;
    var imageDigest := if ContainsDigest(d.imageDigest) then Some(d.imageDigest) else ctx.imageDigest;
    var imageTag := if d.imageTag != "" && ContainsTagChar(d.imageTag) then Some(d.imageTag)
                    else ctx.imageTag;
    var vs := Violations(e);
    Validated(Context(repositoryName, imageDigest, imageTag), if |vs| == 0 then None else Some(vs[0]))
  }

  /** Ranks strictly increase along `vs`. */
  predicate InCheckOrder(vs: seq<Violation>) {
    forall a, b :: 0 <= a < b < |vs| ==> Rank(vs[a]) < Rank(vs[b])
  }

  lemma {:induction false} CollectMembers(e: Event, cs: seq<Violation>)
    ensures forall v :: v in Collect(e, cs) <==> v in cs && Violated(e, v)
  {
    if cs != [] {
      var rest := cs[1..];
      CollectMembers(e, rest);
      assert cs == [cs[0]] + rest;
    }
  }

  /** Dropping the first check keeps the rest in check order, after it. */
  lemma TailInCheckOrder(cs: seq<Violation>)
    requires InCheckOrder(cs) && cs != []
    ensures InCheckOrder(cs[1..])
    ensures forall v :: v in cs[1..] ==> Rank(cs[0]) < Rank(v)
  {
    var rest := cs[1..];
    forall a, b | 0 <= a < b < |rest| ensures Rank(rest[a]) < Rank(rest[b]) {
      assert rest[a] == cs[a + 1] && rest[b] == cs[b + 1];
    }
    forall v | v in rest ensures Rank(cs[0]) < Rank(v) {
      var k :| 0 <= k < |rest| && rest[k] == v;
      assert cs[k + 1] == v;
    }
  }

  lemma {:induction false} CollectInCheckOrder(e: Event, cs: seq<Violation>)
    requires InCheckOrder(cs)
    ensures InCheckOrder(Collect(e, cs))
  {
    if cs != [] {
      var rest := cs[1..];
      TailInCheckOrder(cs);
      CollectInCheckOrder(e, rest);
      CollectMembers(e, rest);
      var head := if Violated(e, cs[0]) then [cs[0]] else [];
      ConcatInCheckOrder(head, Collect(e, rest));
    }
  }

  lemma ConcatInCheckOrder(x: seq<Violation>, y: seq<Violation>)
    requires InCheckOrder(x) && InCheckOrder(y)
    requires forall u, w :: u in x && w in y ==> Rank(u) < Rank(w)
    ensures InCheckOrder(x + y)
  {
    var c := x + y;
    forall a, b | 0 <= a < b < |c| ensures Rank(c[a]) < Rank(c[b]) {
      if b < |x| {
        assert c[a] == x[a] && c[b] == x[b];
      } else if a < |x| {
        assert c[a] in x && c[b] in y;
      } else {
        assert c[a] == y[a - |x|] && c[b] == y[b - |x|];
      }
    }
  }

  /** The collected list holds exactly the failed checks, each once, in check order. */
  lemma ViolationsExactly(e: Event)
    ensures forall v :: v in Violations(e) <==> Violated(e, v)
    ensures InCheckOrder(Violations(e))
  {
    ChecksInOrder();
    CollectInCheckOrder(e, Checks);
    forall v ensures v in Violations(e) <==> Violated(e, v) {
      CollectMembers(e, Checks);
      CheckListed(v);
    }
  }

  lemma ChecksInOrder()
    ensures InCheckOrder(Checks)
  {
    forall i | 0 <= i < |Checks| ensures Rank(Checks[i]) == i {
    }
  }

  /** Every check appears in the list, at the position its rank gives. */
  lemma CheckListed(v: Violation)
    ensures Rank(v) < |Checks| && Checks[Rank(v)] == v
  {
  }

  /** The reported error is the failed check that comes first in check order;
      there is none exactly when every check passes. */
  lemma FirstViolationReported(ctx: Context, e: Event, v: Violation)
    ensures Validate(ctx, e).error == Some(v) <==>
            Violated(e, v) && forall w :: Violated(e, w) ==> Rank(v) <= Rank(w)
    ensures Validate(ctx, e).error == None <==> forall w :: !Violated(e, w)
  {
    ViolationsExactly(e);
    var vs := Violations(e);
    if |vs| > 0 {
      assert vs[0] in vs;
      forall w | Violated(e, w) ensures Rank(vs[0]) <= Rank(w) {
        var k :| 0 <= k < |vs| && vs[k] == w;
      }
    } else {
      forall w ensures !Violated(e, w) {
        assert w !in vs;
      }
    }
    if Violated(e, v) && forall w :: Violated(e, w) ==> Rank(v) <= Rank(w) {
      assert v in vs;
      assert Rank(vs[0]) == Rank(v);
    }
  }

  /** A wrong source is the reported error, whatever else is wrong with the event. */
  lemma SourceMismatchAlwaysReported(ctx: Context, e: Event)
    requires e.source != "aws.ecr"
    ensures Validate(ctx, e).error == Some(SourceInvalid)
  {
    FirstViolationReported(ctx, e, SourceInvalid);
  }

  /** An empty account fails both the emptiness check and the pattern check,
      and the emptiness check is recorded first. */
  lemma EmptyAccountTwoViolations(e: Event)
    requires e.account == ""
    ensures AccountEmpty in Violations(e) && AccountInvalid in Violations(e)
    ensures exists a, b :: 0 <= a < b < |Violations(e)| &&
              Violations(e)[a] == AccountEmpty && Violations(e)[b] == AccountInvalid
  {
    ViolationsExactly(e);
    var vs := Violations(e);
    assert Violated(e, AccountEmpty) && Violated(e, AccountInvalid);
    assert AccountEmpty in vs && AccountInvalid in vs;
    var a :| 0 <= a < |vs| && vs[a] == AccountEmpty;
    var b :| 0 <= b < |vs| && vs[b] == AccountInvalid;
  }

  /** Fewer than twelve characters can never hold an account ID. */
  lemma ShortAccountRejected(e: Event)
    requires |e.account| < 12
    ensures AccountInvalid in Violations(e)
    ensures Validate(EmptyContext, e).error.Some?
  {
    ViolationsExactly(e);
  }

  /** The five-digit account "12345" is rejected. */
  lemma ShortAccountExample(e: Event)
    requires e.account == "12345"
    ensures Validate(EmptyContext, e).error.Some?
  {
    ShortAccountRejected(e);
  }

  /** The tag check passes any non-empty tag that holds a word character,
      however long it is. */
  lemma LongTagAccepted(e: Event)
    requires |e.detail.imageTag| > 128 && ContainsTagChar(e.detail.imageTag)
    ensures !Violated(e, TagInvalid)
    ensures TagInvalid !in Violations(e)
  {
    ViolationsExactly(e);
  }

  /** An empty tag is never a violation and leaves the context's tag as it was. */
  lemma EmptyTagUnset(ctx: Context, e: Event)
    requires e.detail.imageTag == ""
    ensures TagInvalid !in Violations(e)
    ensures Validate(ctx, e).ctx.imageTag == ctx.imageTag
  {
    ViolationsExactly(e);
  }

  /** For a digest written as an algorithm run, a colon and hexadecimal
      characters, the digest check passes exactly when there are at least 32
      of them. */
  lemma DigestBoundary(algorithm: string, hex: string)
    requires |algorithm| > 0 && IsDigestLead(algorithm[0]) && AllAlnum(algorithm[1..])
    requires AllHex(hex)
    ensures ContainsDigest(algorithm + ":" + hex) <==> |hex| >= 32
  {
    var s := algorithm + ":" + hex;
    var n := |algorithm|;
    if |hex| >= 32 {
      assert s[1..n] == algorithm[1..];
      assert s[n + 1..n + 33] == hex[..32];
      assert DigestAt(s, 0, n);
    }
    if ContainsDigest(s) {
      var i, j :| 0 <= i < j < |s| && DigestAt(s, i, j);
      assert j == n;
    }
  }
}

=== FILE: wrappers.dfy ===
/** Wrappers used across the model: an optional value, a value-or-error
    result, and a unit pass-or-fail outcome. */
module Wrappers {

  datatype Option<+T> = None | Some(value: T)

  /** The result of a foreign call that yields a value or an error. */
  datatype Result<+R, +E> = Success(value: R) | Failure(error: E)

  /** The result of a foreign call that yields only an error or nothing. */
  datatype Outcome<+E> = Pass | Fail(error: E)
}
